=== FILE: README.md ===
# Data table interaction logic in Dafny

This project models the parts of the data-table component that the
component computes itself. The sorting, page slicing and row-selection
toggling it hands to the table library are taken as inputs. What is covered:

- **Column reorder** (`Reorder`, `Table`). The `drop` handler of a draggable
  header removes the dragged column id from the column order. It then inserts
  the id at the target's index as found before the removal. The `canDrag`
  guard stops sticky columns from being picked up.
- **Live column resize** (`Resize`). The rule for which headers get a resize
  handle, and the clamped width written into the column-sizing map on every
  mouse move.
- **Pagination arithmetic** (`Paging`, `Decimal`). This covers:
  - the page count `ceil(rows / pageSize)`;
  - the "Showing a to b of n entries" footer;
  - the "Page x of y" label;
  - the first/last page targets;
  - the rows-per-page choices, passed through strings and read back with `Number`.
- **Selection summary** (`Selection`). Clearing the selection, the count on the
  clear button, the tri-state "select all" checkbox and the selection badge.
- **Export projection** (`Export`). Each visible row is turned into a plain
  object keyed by column id. The checkbox column is skipped. The avatar column
  is meant to be skipped too, but the test as written lets it through (see
  Findings); the model has both the export as written and the corrected one.
- **Registry and initial state** (`Columns`, `Table`). The seven column
  definitions, the initial column order, and the fact that any series of drag
  gestures keeps the order a permutation of the registry's ids.

Plain objects become ordered lists of key/value pairs. `Export.Put` follows
JavaScript's own-key order: array-index keys such as "5" come first in
ascending numeric order, and all other keys follow in the order they were
first assigned (`Export.PutKeepsKeyOrder` and `Export.PutNewKeyShape`).
JavaScript's `undefined` becomes `Option.None`. Values the table library
computes (`getSize`, `getCanResize`, `minSize`, `getIsAllPageRowsSelected`,
the visible rows, the selected-row count) are parameters.

The reorder works on a copy of the order (`[...columnOrder]`). The model uses
immutable sequences, so the input order can never change.

Behaviour of the code that is easy to get wrong:
- A drop inserts at the target's index from BEFORE the removal, not after it.
  So dragging one slot to the right swaps the two columns.
- Only the drag source is checked for stickiness. A sticky column can still be
  a drop target.
- The page count is 0 for an empty table, not at least 1. Only the label shows
  it as 1.
- The "last page" button targets `pageCount - 1`, which is -1 for an empty
  table.

## Model

| member | source | states |
|---|---|---|
| Seqs.FindIndex | src/components/data-table/Header.jsx:12-13 | `findIndex`: -1 exactly when the id is absent; otherwise the returned position holds the id and no earlier position does |
| Seqs.RemoveAt | src/components/data-table/Header.jsx:16 | `splice(i, 1)`: one element shorter, elements before `i` kept, later ones shifted down, and the multiset loses exactly the removed element |
| Seqs.InsertAt | src/components/data-table/Header.jsx:17 | `splice(i, 0, x)`: one element longer, `x` at `i` (or at the end when `i` is past it), the others shifted, and the multiset gains exactly `x` |
| Reorder.Drop | src/components/data-table/Header.jsx:10-19 | the new order has the same length and elements with the same multiplicities; if either id is missing the order is unchanged; otherwise the dragged id sits at the target's pre-removal index |
| Reorder.DropIsMove | src/components/data-table/Header.jsx:11-17 | when both ids are present the drop equals the reference move, defined position by position: dragged element at the target index, elements in between shifted one step towards the old index, the rest unchanged |
| Reorder.DropOntoSelf | src/components/data-table/Header.jsx:12-17 | dropping a column on itself leaves the order unchanged |
| Reorder.DropKeepsOutside | src/components/data-table/Header.jsx:16-17 | positions strictly outside the range between the dragged and the target index keep their entries |
| Reorder.DropSide | src/components/data-table/Header.jsx:13-17 | dragging left puts the column immediately before the old target; dragging right puts it immediately after |
| Reorder.DropKeepsDistinct | src/components/data-table/Header.jsx:15-18 | a drop never introduces a duplicate id into a duplicate-free order |
| Reorder.DropExample | src/components/data-table/Header.jsx:11-17 | `[tableId, name, amount, description]` with `amount` dropped on `name` becomes `[tableId, amount, name, description]` |
| Reorder.DragAndDrop | src/components/data-table/Header.jsx:29-35 | a gesture starting on a sticky header leaves the order unchanged; any gesture keeps the order's multiset |
| Reorder.RegistryDragSources | src/components/data-table/Header.jsx:29 | the `canDrag` guard (`Reorder.CanDrag`, not sticky): of the table's columns, exactly `description`, `amount` and `tooltip` can be dragged |
| Columns.ColumnId | src/components/data-table/DataTable.jsx:223 | a column is keyed by its non-empty `id`, otherwise by its `accessorKey` |
| Columns.IdsOf | src/components/data-table/DataTable.jsx:221-223 | the ids of a column list, one per column, in the same order |
| Columns.RegistryIdsValue | src/components/data-table/DataTable.jsx:60-185 | the registry declares `select, avatar, name, description, amount, tooltip, tableId` in this order |
| Columns.RegistryIdsAreDistinct | src/components/data-table/DataTable.jsx:60-185 | no two column definitions share an id |
| Columns.InitialOrderIsLayout | src/components/data-table/DataTable.jsx:49-57 | the initial column order holds every registry id exactly once |
| Table.ApplyMoves | src/components/data-table/Header.jsx:10-19 | after any series of drag gestures the order has the same length and multiset as before |
| Table.MovesKeepLayout | src/components/data-table/Header.jsx:15-18 | an order that lists every registry column exactly once still does so after any series of gestures |
| Table.LayoutAlwaysFromRegistry | src/components/data-table/DataTable.jsx:49-57 | starting from the initial order, every reachable column order is a duplicate-free permutation of the registry ids |
| Table.StickySourcesNeverMove | src/components/data-table/Header.jsx:29 | a series of gestures whose sources are all sticky leaves the order unchanged |
| Table.InitialStateFacts | src/components/data-table/DataTable.jsx:26-57 | on first render: nothing selected and clear disabled, page size is an offered size, the order is a layout of the registry, page count 0, label "Page 1 of 1", footer "Showing 1 to 0" |
| Resize.ResizableColumns | src/components/data-table/SecondaryHeader.jsx:7-9 | the resize-handle test `Resize.CanResize`: `select` and `tableId` never resize; any other column resizes exactly when the library allows it |
| Resize.ResizeStep | src/components/data-table/SecondaryHeader.jsx:21-29 | for a resizable header the new width is at least `minSize` (`Resize.MinWidth`: 50 when unset or 0) and equals current + delta when that reaches the minimum; every other sizing entry is unchanged; a non-resizable header's sizing never changes |
| Resize.GrowingNeverShrinks | src/components/data-table/SecondaryHeader.jsx:25-28 | from a width at or above the minimum, a non-negative move never narrows the column |
| Resize.Session | src/components/data-table/SecondaryHeader.jsx:14-29 | over a whole gesture, the width after every move is at least the minimum; other columns' entries never change; a non-resizable header's sizing is never touched |
| Resize.UnclampedSessionAdds | src/components/data-table/SecondaryHeader.jsx:21-29 | while no running total goes below the minimum, the width after `k` moves is the start width plus the sum of the first `k` moves |
| Resize.GrowingSessionIsMonotone | src/components/data-table/SecondaryHeader.jsx:21-29 | with only rightward moves from a width at or above the minimum, the width never decreases during the gesture |
| Decimal.ToDecimal | src/components/data-table/Pagination.jsx:41 | `${n}` is a non-empty digit string with no leading zero unless `n` is 0 |
| Decimal.Number | src/components/data-table/Pagination.jsx:33 | `Number` yields a value exactly for digit strings, and 0 for the empty string |
| Decimal.NumberOfToDecimal | src/components/data-table/Pagination.jsx:33-41 | reading back the decimal spelling of `n` gives `n` |
| Decimal.ToDecimalOfNumber | src/components/data-table/Pagination.jsx:31-33 | a digit string without a leading zero is the spelling of the number it reads as |
| Decimal.ToDecimalInjective | src/components/data-table/Pagination.jsx:40-41 | different sizes get different item strings |
| Paging.PageSizeChoiceRoundTrip | src/components/data-table/Pagination.jsx:31-41 | picking an offered size, read back by `Paging.ChosenPageSize` (`Number(value)`), sets exactly that size |
| Paging.PageSizeOptionsFacts | src/components/data-table/Pagination.jsx:40 | the offered sizes are exactly {5, 10, 20, 30, 40, 50}, positive and strictly increasing, and include the initial size 5 |
| Paging.PageCount | src/components/data-table/DataTable.jsx:46 | 0 pages for no rows; otherwise `(pages-1)*pageSize < rows <= pages*pageSize` |
| Paging.PageCountIsUnique | src/components/data-table/DataTable.jsx:46 | the ceiling is the only page count satisfying those bounds |
| Paging.Footer | src/components/data-table/DataTable.jsx:349-354 | the first row shown is at least 1, the last is at most the row count, and at most `pageSize` rows are named |
| Paging.FooterMatchesWindow | src/components/data-table/DataTable.jsx:349-354 | the footer is non-empty exactly when the page index is below the page count, and then names the 1-based bounds of that page's row window |
| Paging.FooterNonEmpty | src/components/data-table/DataTable.jsx:349-354 | with rows present and a valid page index, `1 <= first <= last <= rows` |
| Paging.FooterOfEmptyTable | src/components/data-table/DataTable.jsx:349-354 | an empty table's footer reads "Showing 1 to 0" |
| Paging.Label | src/components/data-table/Pagination.jsx:51 | the page number is the index plus one, so at least 1; the total is the page count, or 1 when that is 0 |
| Paging.LabelWithinTotal | src/components/data-table/Pagination.jsx:51 | for a valid page index the page number never exceeds the total; the total is 1 with a zero page count exactly when there are no rows |
| Paging.JumpTargets | src/components/data-table/Pagination.jsx:59-86 | the last page target (`Paging.LastPageTarget`, `pageCount - 1`) is the page holding the last row and its footer ends at that row; the first page target is a valid page index exactly when there are rows; with no rows the last target is -1 |
| Selection.ClearAll | src/components/data-table/DataTable.jsx:242-244 | clearing leaves no selected row and a count of 0 |
| Selection.SelectedCount | src/components/data-table/DataTable.jsx:362-365 | the count is 0 exactly when the selection is empty |
| Selection.ClearButtonState | src/components/data-table/DataTable.jsx:361-365 | the clear button is disabled exactly when no row is selected, and is always disabled right after clearing |
| Selection.SelectAllState | src/components/data-table/DataTable.jsx:65 | checked exactly when all page rows are selected; indeterminate exactly when some but not all are; unchecked otherwise |
| Selection.SelectionBadge | src/components/data-table/Pagination.jsx:11-22 | the badge shows exactly when the selected count is positive, with that count and the filtered row count |
| Export.Put | src/components/data-table/DataTable.jsx:224 | assigning an existing key keeps the key order, stores `v` in that key's entry and changes no other entry; a new key is added once, with the other entries kept as a multiset (their order is stated by `Export.PutNewKeyShape`); a new key that is not an array index goes last |
| Export.IndexValueInjective | src/components/data-table/DataTable.jsx:224 | two array-index keys with the same numeric value are the same key |
| Export.InsertIndex | src/components/data-table/DataTable.jsx:224 | a new array-index key is added once, and the other entries are kept (as a multiset) |
| Export.InsertIndexShape | src/components/data-table/DataTable.jsx:224 | a new array-index key is spliced in at a single position, so the existing entries keep their relative order |
| Export.PutNewKeyShape | src/components/data-table/DataTable.jsx:224 | assigning a new key inserts it at one position with every other entry in its order; a key that is not an array index goes last |
| Export.InsertIndexKeepsOrder | src/components/data-table/DataTable.jsx:224 | adding a new array-index key keeps the object's keys in own-key order (array-index keys first, ascending) |
| Export.PutKeepsKeyOrder | src/components/data-table/DataTable.jsx:224 | any assignment keeps the object's keys in own-key order |
| Export.IndexKeyListedFirst | src/components/data-table/DataTable.jsx:224 | assigning `name` and then `5` lists the keys as `5, name` |
| Export.ProjectKeyOrdered | src/components/data-table/DataTable.jsx:217-228 | for any column list the exported object's keys are in own-key order |
| Export.Project | src/components/data-table/DataTable.jsx:217-228 | every exported value is the row's raw value for its key, and every key is one the filter keeps |
| Export.ProjectKeys | src/components/data-table/DataTable.jsx:221-226 | when the kept columns have distinct keys and none of them is an array index, the object's keys are exactly those keys in column declaration order |
| Export.ExportKeysAreNotIndices | src/components/data-table/DataTable.jsx:60-185 | none of the keys the table's columns export, as written or corrected, is an array index |
| Export.IntendedSkipsSelectAndAvatar | src/components/data-table/DataTable.jsx:220-222 | with the corrected test, `select` and `avatar` are never exported, for any column list |
| Export.AsWrittenKeepsIdlessAvatar | src/components/data-table/DataTable.jsx:222 | with the test as written, a column keyed `avatar` that has no `id` field is exported |
| Export.RegistryExportedIds | src/components/data-table/DataTable.jsx:221-224 | with the corrected test the table exports the keys `name, description, amount, tooltip, tableId` |
| Export.RegistryExportedIdsAsWritten | src/components/data-table/DataTable.jsx:221-224 | with the test as written the table exports `avatar` followed by those five keys |
| Export.ExportRow | src/components/data-table/DataTable.jsx:217-229 | with the corrected test, one row's object has exactly the keys `name, description, amount, tooltip, tableId` in that order, each holding the row's raw value |
| Export.AsWrittenIdsDistinct | src/components/data-table/DataTable.jsx:221-224 | the six keys exported as written are still pairwise different, so each row object has six entries |
| Export.ExportRowAsWritten | src/components/data-table/DataTable.jsx:217-229 | as written, one row's object has the keys `avatar, name, description, amount, tooltip, tableId`, each holding the row's raw value |
| Export.ExportVisible | src/components/data-table/DataTable.jsx:212-229 | with the corrected test, one object per visible row, in row order, each with exactly the five export keys holding that row's raw, unformatted values |
| Export.ExportVisibleAsWritten | src/components/data-table/DataTable.jsx:212-229 | as written, one object per visible row, in row order, each with the keys `avatar` and then the five export keys, holding that row's raw values |
| Table.ExportMatchesFooter | src/components/data-table/DataTable.jsx:212-229 | when the visible rows are the current page's window of the sorted rows, the export has exactly as many records as the footer names, and record `i` is the export of row `first + i`, both with the corrected test and as written |
| Table.SecondPageOfTwelve | src/components/data-table/DataTable.jsx:46 | twelve rows in pages of five give three pages, and the second page's footer reads "Showing 6 to 10" over the row window 5..10 |
| Export.AsWrittenExportsAvatar | src/components/data-table/DataTable.jsx:220-224 | every row exported as written carries `avatar`; the corrected export never does |

## Findings

| source | as written | input that shows it | evidently intended | confidence | as-written member | corrected member |
|---|---|---|---|---|---|---|
| src/components/data-table/DataTable.jsx:220-224 | the skip test compares `column.id` with "avatar", but the avatar column defines only `accessorKey: "avatar"`, so its `id` is `undefined` and the test lets it through | any export: every exported row gets an `avatar` key holding the avatar URL | skip the column whose key (`id` or `accessorKey`) is "select" or "avatar", as the comment on line 220 says | high (not executed) | Export.ExportRowAsWritten | Export.ExportRow |

`Export.AsWrittenExportsAvatar` and `Export.RegistryExportedIdsAsWritten`
prove the discrepancy. `Export.ExportVisibleAsWritten` is the export of the
visible rows as written; `Export.ExportVisible` is built on the corrected row
mapping.

## Left out

- Table.ExportMatchesFooter: assumes the visible rows are the slice of the sorted rows from `pageIndex * pageSize`, clipped to the rows that exist. That slice is computed by the library and is not modelled.
- Sorting, page slicing, `toggleSelected` / `toggleAllPageRowsSelected`, `getCanNextPage` / `getCanPreviousPage` and the clamping inside `setPageIndex`: these are in `@tanstack/react-table`, which is not part of this model. Their results (visible rows, "all/some page rows selected", selected-row counts) are parameters.
- Resize.ResizeStep: `getSize()` is modelled as the sizing entry, or a given default before the column has one. The library also clamps that value between the column's `minSize` and `maxSize`; that clamp is not modelled.
- Resize.Session: the DOM `mousedown` / `mousemove` / `mouseup` listener wiring is not modelled. A gesture is the sequence of `movementX` values it delivers.
- Reorder.DragAndDrop: the react-dnd `useDrag` / `useDrop` wiring is not modelled. A gesture is a source column definition and a target id. Which headers are draggable at all (only sortable ones get a drag wrapper) depends on the library's `getCanSort` and is not modelled.
- Decimal.Number: models JavaScript `Number` only on the empty string and strings of ASCII digits. Whitespace, signs, fractions, exponents and hex strings give None rather than their JavaScript value. The page-size picker only ever passes digit strings. Digit strings are also read exactly, where JavaScript rounds values above 2^53 to the nearest double.
- Decimal.ToDecimal: spells every natural number in plain digits. JavaScript's `${n}` switches to exponent notation ("1e+21") from 10^21, and a double cannot hold every integer above 2^53. The picker's sizes are at most 50.
- Decimal.NumberOfToDecimal: the round trip is proved over exact integers. In JavaScript it holds only for integers below 2^53, which covers every offered page size.
- Decimal.ToDecimalOfNumber: a digit string is read as its exact value. In JavaScript a string such as "9007199254740993" reads as a nearby double whose spelling differs, so the statement holds there only below 2^53.
- Paging.PageCount: assumes a positive page size. The picker only offers positive sizes, and the initial size is 5. `Math.ceil` over floating-point division is modelled as exact integer ceiling.
- React rendering, JSX markup, CSS classes, and the Tooltip, Checkbox, Button and Select widgets: display only.
- XLSX worksheet, workbook and file writing: a foreign library and file I/O. The model stops at the exported objects.
- `parseFloat`, `Intl.NumberFormat` currency formatting and the amount colour thresholds: floating point, display only. The model records that the export uses raw values.
- Loading the mock data through `useEffect`: I/O. The loaded row count is a parameter. The initial state has 0 rows.
- The sorting state (`sorting`, initially empty) is carried by the library and is not part of `Table.TableState`.
- `pazy-assignment/src/main.jsx`: the application shell. It mounts a component that is not part of this model.

=== FILE: columns.dfy ===
/**
 * The column registry of the data table: the fixed `columns` array and the
 * initial column order, reduced to the fields the table logic reads.
 */
module Columns {
  import opened Wrappers
  import opened Seqs

  /** One column definition. Fields absent from a definition are None. */
  datatype ColumnDef = ColumnDef(
    id: Option<string>,           // explicit `id`
    accessorKey: Option<string>,  // `accessorKey`
    isSticky: bool)               // `meta.isSticky` (absent reads as false)

  /**
   * The key a column is known by: `column.id || String(column.accessorKey)`.
   * An empty `id` is falsy and falls through; `String(undefined)` is "undefined".
   */
  function ColumnId(c: ColumnDef): (k: string)
    ensures c.id.Some? && c.id.value != "" ==> k == c.id.value
    ensures (c.id.None? || c.id.value == "") && c.accessorKey.Some? ==> k == c.accessorKey.value
  {
    if c.id.Some? && c.id.value != "" then c.id.value
    else c.accessorKey.GetOr("undefined")
  }

  /** The seven column definitions, in declaration order. */
  function Registry(): seq<ColumnDef> {
    [
      ColumnDef(Some("select"), None, true),
      ColumnDef(None, Some("avatar"), true),
      ColumnDef(None, Some("name"), true),
      ColumnDef(None, Some("description"), false),
      ColumnDef(None, Some("amount"), false),
      ColumnDef(None, Some("tooltip"), false),
      ColumnDef(None, Some("tableId"), true)
    ]
  }

  /** The ids of a list of columns, in the same order. */
  function IdsOf(cols: seq<ColumnDef>): (ids: seq<string>)
    ensures |ids| == |cols|
    ensures forall i | 0 <= i < |cols| :: ids[i] == ColumnId(cols[i])
  {
    if |cols| == 0 then [] else [ColumnId(cols[0])] + IdsOf(cols[1..])
  }

  /** The ids of the registry, in declaration order. */
  function RegistryIds(): seq<string> {
    IdsOf(Registry())
  }

  /** The initial `columnOrder` state. */
  const InitialOrder: seq<string> :=
    ["select", "tableId", "avatar", "name", "description", "amount", "tooltip"]

  /** A column order that holds every registry column exactly once. */
  predicate IsLayoutOf(order: seq<string>, cols: seq<ColumnDef>) {
    multiset(order) == multiset(IdsOf(cols)) && Distinct(order)
  }

  /** The registry declares these seven ids, in this order. */
  lemma RegistryIdsValue()
    ensures RegistryIds() == ["select", "avatar", "name", "description", "amount", "tooltip", "tableId"]
  {
    var ids := RegistryIds();
    assert ids[0] == "select" && ids[1] == "avatar" && ids[2] == "name" && ids[3] == "description";
    assert ids[4] == "amount" && ids[5] == "tooltip" && ids[6] == "tableId";
  }

  /** No two registry columns share an id. */
  lemma RegistryIdsAreDistinct()
    ensures Distinct(RegistryIds())
  {
    RegistryIdsValue();
    var lit := ["select", "avatar", "name", "description", "amount", "tooltip", "tableId"];
    assert Distinct(lit);
  }

  /** The initial column order lists every registry column exactly once. */
  lemma InitialOrderIsLayout()
    ensures IsLayoutOf(InitialOrder, Registry())
  {
    InitialOrderIsDistinct();
    InitialOrderHasRegistryIds();
  }

  lemma InitialOrderIsDistinct()
    ensures Distinct(InitialOrder)
  {
  }

  lemma InitialOrderHasRegistryIds()
    ensures multiset(InitialOrder) == multiset(RegistryIds())
  {
    RegistryIdsValue();
    MoveLastToSecond("select", "avatar", "name", "description", "amount", "tooltip", "tableId");
  }

  /** Moving the last of seven elements to second place keeps the multiset. */
  lemma MoveLastToSecond<T>(a: T, b: T, c: T, d: T, e: T, f: T, g: T)
    ensures multiset([a, g, b, c, d, e, f]) == multiset([a, b, c, d, e, f, g])
  {
    var mid := [b, c, d, e, f];
    assert [a, g, b, c, d, e, f] == [a] + [g] + mid;
    assert [a, b, c, d, e, f, g] == [a] + mid + [g];
    MoveBlockKeepsMultiset(a, g, mid);
  }

  lemma MoveBlockKeepsMultiset<T>(a: T, g: T, mid: seq<T>)
    ensures multiset([a] + [g] + mid) == multiset([a] + mid + [g])
  {
  }
}

=== FILE: decimal.dfy ===
/**
 * The page-size picker passes sizes through strings: `${pageSize}` renders a
 * size and `Number(value)` reads the chosen one back. This module models both
 * on exact non-negative integers. JavaScript numbers are doubles, so the two
 * agree with it only below 2^53 (and `${n}` only below 10^21, where exponent
 * notation starts); the offered sizes are at most 50.
 */
module Decimal {
  import opened Wrappers

  predicate IsDigit(c: char) {
    '0' <= c <= '9'
  }

  function DigitChar(d: nat): (c: char)
    requires d < 10
    ensures IsDigit(c)
  {
    (('0' as int) + d) as char
  }

  function DigitValue(c: char): (d: nat)
    requires IsDigit(c)
    ensures d < 10
  {
    (c as int) - ('0' as int)
  }

  /** `String(n)`: the shortest decimal spelling of `n`. */
  function ToDecimal(n: nat): (s: string)
    ensures |s| >= 1
    ensures forall i | 0 <= i < |s| :: IsDigit(s[i])
    ensures s[0] == '0' ==> n == 0
    decreases n
  {
    if n < 10 then [DigitChar(n)] else ToDecimal(n / 10) + [DigitChar(n % 10)]
  }

  /** The value of a string of decimal digits, most significant first. */
  function DigitsValue(s: string): nat
    requires forall i | 0 <= i < |s| :: IsDigit(s[i])
  {
    if |s| == 0 then 0 else DigitsValue(s[..|s| - 1]) * 10 + DigitValue(s[|s| - 1])
  }

  /**
   * `Number(s)` on the strings this model covers: a string of decimal digits
   * reads as its value (the empty string reads as 0); any other string is None.
   */
  function Number(s: string): (r: Option<nat>)
    ensures r.Some? <==> forall i | 0 <= i < |s| :: IsDigit(s[i])
    ensures s == "" ==> r == Some(0)
  {
    if forall i | 0 <= i < |s| :: IsDigit(s[i]) then Some(DigitsValue(s)) else None
  }

  /** Reading back what `String` wrote gives the same number. */
  lemma {:induction false} NumberOfToDecimal(n: nat)
    ensures Number(ToDecimal(n)) == Some(n)
    decreases n
  {
    var s := ToDecimal(n);
    if n < 10 {
      assert s[..0] == [];
    } else {
      NumberOfToDecimal(n / 10);
      var prefix := ToDecimal(n / 10);
      assert s[..|s| - 1] == prefix;
      assert DigitsValue(s) == DigitsValue(prefix) * 10 + n % 10;
    }
  }

  /** Distinct numbers are written differently. */
  lemma ToDecimalInjective(m: nat, n: nat)
    requires ToDecimal(m) == ToDecimal(n)
    ensures m == n
  {
    NumberOfToDecimal(m);
    NumberOfToDecimal(n);
  }

  /** A digit string without a leading zero is the decimal spelling of its value. */
  lemma {:induction false} ToDecimalOfNumber(s: string)
    requires |s| > 0 && s[0] != '0'
    requires forall i | 0 <= i < |s| :: IsDigit(s[i])
    ensures Number(s).Some? && ToDecimal(Number(s).value) == s
    decreases |s|
  {
    var init := s[..|s| - 1];
    var d := DigitValue(s[|s| - 1]);
    if |s| == 1 {
      assert DigitsValue(s) == d by { assert init == []; }
      assert DigitChar(d) == s[0];
    } else {
      ToDecimalOfNumber(init);
      var v := DigitsValue(init);
      assert v >= 1;
      assert DigitsValue(s) == v * 10 + d;
      assert (v * 10 + d) / 10 == v && (v * 10 + d) % 10 == d;
      assert DigitChar(d) == s[|s| - 1];
      assert s == init + [s[|s| - 1]];
    }
  }
}

=== FILE: export.dfy ===
/**
 * Export of the visible rows: each row becomes a plain object keyed by column
 * id, built by visiting the column definitions in declaration order and
 * skipping the checkbox column and, with the corrected test, the avatar
 * column. Writing the spreadsheet file is not modelled.
 */
module Export {
  import opened Wrappers
  import opened Maps
  import opened Seqs
  import opened Columns
  import opened Decimal

  /** A row's raw values by column id, as `row.getValue(id)` reads them. */
  type Row<V> = map<string, V>

  /**
   * An exported object, as its keys and values in insertion order. A value is
   * None where the row has no such field (`getValue` yields `undefined`).
   */
  type ExportRecord<V> = seq<(string, Option<V>)>

  function KeysOf<V>(rec: ExportRecord<V>): (ks: seq<string>)
    ensures |ks| == |rec|
    ensures forall i | 0 <= i < |rec| :: ks[i] == rec[i].0
  {
    seq(|rec|, i requires 0 <= i < |rec| => rec[i].0)
  }

  /**
   * Whether a key is an array index: the canonical decimal spelling of an
   * integer below 2^32 - 1. A plain object lists such keys before all
   * others, in ascending numeric order, whatever order they were added in.
   */
  predicate IsArrayIndex(k: string) {
    |k| > 0 && Number(k).Some? && (k[0] != '0' || k == "0") && Number(k).value < 0xFFFF_FFFF
  }

  function IndexValue(k: string): nat
    requires IsArrayIndex(k)
  {
    Number(k).value
  }

  /** An array-index key is the decimal spelling of its value. */
  lemma CanonicalIndex(k: string)
    requires IsArrayIndex(k)
    ensures ToDecimal(IndexValue(k)) == k
  {
    if k[0] == '0' {
      assert k == "0";
      assert DigitsValue(k) == DigitsValue(k[..0]) * 10 + 0;
    } else {
      ToDecimalOfNumber(k);
    }
  }

  /** Two array-index keys with the same value are the same key. */
  lemma IndexValueInjective(a: string, b: string)
    requires IsArrayIndex(a) && IsArrayIndex(b)
    ensures IndexValue(a) == IndexValue(b) ==> a == b
  {
    CanonicalIndex(a);
    CanonicalIndex(b);
  }

  /** A key that starts with anything but a digit is not an array index. */
  lemma NotIndexIfLetterFirst(k: string)
    requires |k| > 0 && !IsDigit(k[0])
    ensures !IsArrayIndex(k)
  {
  }

  /**
   * The own-key order of a plain object: an array-index key is preceded only
   * by array-index keys, each with a smaller value.
   */
  predicate KeyOrdered(ks: seq<string>) {
    forall i, j | 0 <= i < j < |ks| && IsArrayIndex(ks[j]) ::
      IsArrayIndex(ks[i]) && IndexValue(ks[i]) < IndexValue(ks[j])
  }

  /** Places a new array-index key after the smaller array-index keys and ahead of everything else. */
  function InsertIndex<V>(rec: ExportRecord<V>, k: string, v: Option<V>): (r: ExportRecord<V>)
    requires IsArrayIndex(k)
    ensures |r| == |rec| + 1
    ensures multiset(r) == multiset(rec) + multiset{(k, v)}
    ensures forall i | 0 <= i < |r| :: r[i] == (k, v) || r[i] in rec
    decreases |rec|
  {
    if |rec| > 0 && IsArrayIndex(rec[0].0) && IndexValue(rec[0].0) < IndexValue(k) then
      assert rec == [rec[0]] + rec[1..];
      [rec[0]] + InsertIndex(rec[1..], k, v)
    else
      [(k, v)] + rec
  }

  lemma KeysOfCons<V>(e: (string, Option<V>), rec: ExportRecord<V>)
    ensures KeysOf([e] + rec) == [e.0] + KeysOf(rec)
  {
  }

  lemma KeyOrderedTail(ks: seq<string>)
    requires |ks| > 0 && KeyOrdered(ks)
    ensures KeyOrdered(ks[1..])
  {
    var ts := ks[1..];
    forall i, j | 0 <= i < j < |ts| && IsArrayIndex(ts[j])
      ensures IsArrayIndex(ts[i]) && IndexValue(ts[i]) < IndexValue(ts[j])
    {
      assert ts[i] == ks[i + 1] && ts[j] == ks[j + 1];
    }
  }

  /** A key may go in front of an ordered key list when every array-index key in it is larger. */
  lemma KeyOrderedCons(x: string, ks: seq<string>)
    requires KeyOrdered(ks)
    requires forall j | 0 <= j < |ks| && IsArrayIndex(ks[j]) :: IsArrayIndex(x) && IndexValue(x) < IndexValue(ks[j])
    ensures KeyOrdered([x] + ks)
  {
    var xs := [x] + ks;
    forall i, j | 0 <= i < j < |xs| && IsArrayIndex(xs[j])
      ensures IsArrayIndex(xs[i]) && IndexValue(xs[i]) < IndexValue(xs[j])
    {
      assert xs[j] == ks[j - 1];
      if i > 0 {
        assert xs[i] == ks[i - 1];
      }
    }
  }

  /** Inserting a new array-index key into a record in object key order keeps that order. */
  lemma {:induction false} InsertIndexKeepsOrder<V>(rec: ExportRecord<V>, k: string, v: Option<V>)
    requires IsArrayIndex(k) && k !in KeysOf(rec)
    requires KeyOrdered(KeysOf(rec))
    ensures KeyOrdered(KeysOf(InsertIndex(rec, k, v)))
    decreases |rec|
  {
    var ks := KeysOf(rec);
    if |rec| > 0 && IsArrayIndex(rec[0].0) && IndexValue(rec[0].0) < IndexValue(k) {
      var tail := rec[1..];
      assert KeysOf(tail) == ks[1..];
      KeyOrderedTail(ks);
      InsertIndexKeepsOrder(tail, k, v);
      var rt := InsertIndex(tail, k, v);
      forall j | 0 <= j < |rt| && IsArrayIndex(KeysOf(rt)[j])
        ensures IsArrayIndex(rec[0].0) && IndexValue(rec[0].0) < IndexValue(KeysOf(rt)[j])
      {
        if rt[j] != (k, v) {
          var m :| 0 <= m < |tail| && tail[m] == rt[j];
          assert ks[m + 1] == rt[j].0;
        }
      }
      KeyOrderedCons(rec[0].0, KeysOf(rt));
      KeysOfCons(rec[0], rt);
    } else {
      forall j | 0 <= j < |ks| && IsArrayIndex(ks[j])
        ensures IsArrayIndex(k) && IndexValue(k) < IndexValue(ks[j])
      {
        assert IsArrayIndex(ks[0]);
        IndexValueInjective(ks[0], k);
      }
      KeyOrderedCons(k, ks);
      KeysOfCons((k, v), rec);
    }
  }

  /**
   * `rowData[k] = v` on a plain object: a key already present keeps its
   * place and takes the new value; a new array-index key goes after the
   * smaller array-index keys; any other new key is added last.
   */
  function Put<V>(rec: ExportRecord<V>, k: string, v: Option<V>): (r: ExportRecord<V>)
    ensures k in KeysOf(rec) ==> |r| == |rec| && KeysOf(r) == KeysOf(rec)
    ensures k in KeysOf(rec) ==> forall i | 0 <= i < |r| :: r[i] == (k, v) || r[i] == rec[i]
    ensures k in KeysOf(rec) ==> r[FindIndex(KeysOf(rec), k)] == (k, v)
    ensures k !in KeysOf(rec) ==> multiset(r) == multiset(rec) + multiset{(k, v)}
    ensures k !in KeysOf(rec) && !IsArrayIndex(k) ==> r == rec + [(k, v)]
    ensures forall i | 0 <= i < |r| :: r[i] == (k, v) || r[i] in rec
  {
    var i := FindIndex(KeysOf(rec), k);
    if i != -1 then rec[i := (k, v)]
    else if IsArrayIndex(k) then InsertIndex(rec, k, v)
    else rec + [(k, v)]
  }

  /**
   * A new array-index key is spliced in at one position: the existing
   * entries keep their relative order on both sides of it.
   */
  lemma {:induction false} InsertIndexShape<V>(rec: ExportRecord<V>, k: string, v: Option<V>)
    requires IsArrayIndex(k)
    ensures exists p | 0 <= p <= |rec| :: InsertIndex(rec, k, v) == rec[..p] + [(k, v)] + rec[p..]
    decreases |rec|
  {
    if |rec| > 0 && IsArrayIndex(rec[0].0) && IndexValue(rec[0].0) < IndexValue(k) {
      var tail := rec[1..];
      InsertIndexShape(tail, k, v);
      var q :| 0 <= q <= |tail| && InsertIndex(tail, k, v) == tail[..q] + [(k, v)] + tail[q..];
      assert rec[..q + 1] == [rec[0]] + tail[..q];
      assert rec[q + 1..] == tail[q..];
      assert InsertIndex(rec, k, v) == rec[..q + 1] + [(k, v)] + rec[q + 1..];
    } else {
      assert InsertIndex(rec, k, v) == rec[..0] + [(k, v)] + rec[0..];
    }
  }

  /**
   * Assigning a new key inserts it at a single position and keeps every
   * other entry in its order; a key that is not an array index goes last.
   */
  lemma PutNewKeyShape<V>(rec: ExportRecord<V>, k: string, v: Option<V>)
    requires k !in KeysOf(rec)
    ensures exists p | 0 <= p <= |rec| :: Put(rec, k, v) == rec[..p] + [(k, v)] + rec[p..]
    ensures !IsArrayIndex(k) ==> Put(rec, k, v) == rec + [(k, v)]
  {
    if IsArrayIndex(k) {
      InsertIndexShape(rec, k, v);
    } else {
      assert Put(rec, k, v) == rec[..|rec|] + [(k, v)] + rec[|rec|..];
    }
  }

  /** Assignments keep a record in object key order. */
  lemma PutKeepsKeyOrder<V>(rec: ExportRecord<V>, k: string, v: Option<V>)
    requires KeyOrdered(KeysOf(rec))
    ensures KeyOrdered(KeysOf(Put(rec, k, v)))
  {
    if k !in KeysOf(rec) {
      if IsArrayIndex(k) {
        InsertIndexKeepsOrder(rec, k, v);
      } else {
        var rs := KeysOf(Put(rec, k, v));
        forall i, j | 0 <= i < j < |rs| && IsArrayIndex(rs[j])
          ensures IsArrayIndex(rs[i]) && IndexValue(rs[i]) < IndexValue(rs[j])
        {
          assert rs[i] == KeysOf(rec)[i] && rs[j] == KeysOf(rec)[j];
        }
      }
    }
  }

  /** "5" is an array index and "name" is not. */
  lemma SampleKeys()
    ensures IsArrayIndex("5") && !IsArrayIndex("name")
  {
    assert DigitsValue("5") == DigitsValue("5"[..0]) * 10 + 5;
    NotIndexIfLetterFirst("name");
  }

  /** An array-index key assigned after a name key is still listed first. */
  lemma IndexKeyListedFirst<V>(a: Option<V>, b: Option<V>)
    ensures KeysOf(Put(Put([], "name", a), "5", b)) == ["5", "name"]
  {
    SampleKeys();
    var rec: ExportRecord<V> := [("name", a)];
    assert Put([], "name", a) == rec;
    assert KeysOf(rec) == ["name"];
    assert InsertIndex(rec, "5", b) == [("5", b), ("name", a)];
    assert Put(rec, "5", b) == [("5", b), ("name", a)];
  }

  /** The column test as written in the source, and as evidently intended. */
  datatype Filter = AsWritten | Intended

  /**
   * Whether a column is exported. As written the test compares the column's
   * own `id` field, which the avatar column lacks (it only has an
   * `accessorKey`); as intended it compares the key the column is exported under.
   */
  predicate Exported(f: Filter, c: ColumnDef) {
    match f
    case AsWritten => c.id != Some("select") && c.id != Some("avatar")
    case Intended => ColumnId(c) != "select" && ColumnId(c) != "avatar"
  }

  /** The keys a filter lets through, in column order. */
  function ExportedIds(f: Filter, cols: seq<ColumnDef>): seq<string> {
    if |cols| == 0 then []
    else
      var c := cols[|cols| - 1];
      ExportedIds(f, cols[..|cols| - 1]) + (if Exported(f, c) then [ColumnId(c)] else [])
  }

  /**
   * The `columns.forEach` loop for one row: every kept column writes its raw
   * value under its key. Every value in the result is the row's own value for
   * that key, and every key is one the filter lets through.
   */
  function Project<V>(f: Filter, cols: seq<ColumnDef>, row: Row<V>): (rec: ExportRecord<V>)
    ensures forall i | 0 <= i < |rec| :: rec[i].1 == Get(row, rec[i].0)
    ensures forall i | 0 <= i < |rec| :: rec[i].0 in ExportedIds(f, cols)
  {
    if |cols| == 0 then []
    else
      var init := cols[..|cols| - 1];
      var c := cols[|cols| - 1];
      var rec := Project(f, init, row);
      if Exported(f, c) then Put(rec, ColumnId(c), Get(row, ColumnId(c))) else rec
  }

  /** Whether none of the keys is an array index. */
  predicate NoArrayIndex(ks: seq<string>) {
    forall i | 0 <= i < |ks| :: !IsArrayIndex(ks[i])
  }

  /** Whatever the columns, the exported object's keys are in object key order. */
  lemma {:induction false} ProjectKeyOrdered<V>(f: Filter, cols: seq<ColumnDef>, row: Row<V>)
    ensures KeyOrdered(KeysOf(Project(f, cols, row)))
    decreases |cols|
  {
    if |cols| > 0 {
      var init := cols[..|cols| - 1];
      var c := cols[|cols| - 1];
      ProjectKeyOrdered(f, init, row);
      if Exported(f, c) {
        PutKeepsKeyOrder(Project(f, init, row), ColumnId(c), Get(row, ColumnId(c)));
      }
    }
  }

  /**
   * When the kept columns have distinct keys, none of them an array index,
   * the object's keys are exactly those keys, in column order.
   */
  lemma {:induction false} ProjectKeys<V>(f: Filter, cols: seq<ColumnDef>, row: Row<V>)
    requires Distinct(ExportedIds(f, cols))
    requires NoArrayIndex(ExportedIds(f, cols))
    ensures KeysOf(Project(f, cols, row)) == ExportedIds(f, cols)
    decreases |cols|
  {
    if |cols| > 0 {
      var init := cols[..|cols| - 1];
      var c := cols[|cols| - 1];
      var ids := ExportedIds(f, cols);
      var initIds := ExportedIds(f, init);
      assert Distinct(initIds) && NoArrayIndex(initIds) by {
        assert forall i | 0 <= i < |initIds| :: ids[i] == initIds[i];
      }
      ProjectKeys(f, init, row);
      var rec := Project(f, init, row);
      if Exported(f, c) {
        assert ids == initIds + [ColumnId(c)];
        assert !IsArrayIndex(ids[|ids| - 1]);
        forall m | 0 <= m < |initIds| ensures initIds[m] != ColumnId(c) {
          DistinctAt(ids, m, |ids| - 1);
        }
        assert ColumnId(c) !in KeysOf(rec);
        assert KeysOf(rec + [(ColumnId(c), Get(row, ColumnId(c)))]) == KeysOf(rec) + [ColumnId(c)];
      } else {
        assert ids == initIds + [];
      }
    }
  }

  /** The intended filter never exports the checkbox or the avatar column, whatever the columns are. */
  lemma {:induction false} IntendedSkipsSelectAndAvatar(cols: seq<ColumnDef>)
    ensures "select" !in ExportedIds(Intended, cols)
    ensures "avatar" !in ExportedIds(Intended, cols)
    decreases |cols|
  {
    if |cols| > 0 {
      IntendedSkipsSelectAndAvatar(cols[..|cols| - 1]);
    }
  }

  /** As written, a column keyed `avatar` that has no `id` field is exported anyway. */
  lemma {:induction false} AsWrittenKeepsIdlessAvatar(cols: seq<ColumnDef>, i: nat)
    requires i < |cols|
    requires cols[i].id.None? && cols[i].accessorKey == Some("avatar")
    ensures "avatar" in ExportedIds(AsWritten, cols)
    decreases |cols|
  {
    if i < |cols| - 1 {
      AsWrittenKeepsIdlessAvatar(cols[..|cols| - 1], i);
    }
  }

  /** Appending a column appends its key when the filter keeps it. */
  lemma ExportedIdsSnoc(f: Filter, cols: seq<ColumnDef>, c: ColumnDef)
    ensures ExportedIds(f, cols + [c]) == ExportedIds(f, cols) + (if Exported(f, c) then [ColumnId(c)] else [])
  {
    assert (cols + [c])[..|cols|] == cols;
  }

  /** The keys exported for the table's columns, as intended. */
  lemma RegistryExportedIds()
    ensures ExportedIds(Intended, Registry()) == ExportKeys
  {
    var cols := Registry();
    var c0, c1, c2, c3, c4, c5, c6 := cols[0], cols[1], cols[2], cols[3], cols[4], cols[5], cols[6];
    assert cols == [c0] + [c1] + [c2] + [c3] + [c4] + [c5] + [c6];
    ExportedIdsSnoc(Intended, [], c0);
    assert ExportedIds(Intended, [c0]) == [];
    ExportedIdsSnoc(Intended, [c0], c1);
    assert ExportedIds(Intended, [c0] + [c1]) == [];
    ExportedIdsSnoc(Intended, [c0] + [c1], c2);
    ExportedIdsSnoc(Intended, [c0] + [c1] + [c2], c3);
    ExportedIdsSnoc(Intended, [c0] + [c1] + [c2] + [c3], c4);
    ExportedIdsSnoc(Intended, [c0] + [c1] + [c2] + [c3] + [c4], c5);
    ExportedIdsSnoc(Intended, [c0] + [c1] + [c2] + [c3] + [c4] + [c5], c6);
  }

  /** The keys exported for the table's columns, as written: the avatar column gets through. */
  lemma RegistryExportedIdsAsWritten()
    ensures ExportedIds(AsWritten, Registry()) == ["avatar"] + ExportKeys
  {
    var cols := Registry();
    var c0, c1, c2, c3, c4, c5, c6 := cols[0], cols[1], cols[2], cols[3], cols[4], cols[5], cols[6];
    assert cols == [c0] + [c1] + [c2] + [c3] + [c4] + [c5] + [c6];
    ExportedIdsSnoc(AsWritten, [], c0);
    assert ExportedIds(AsWritten, [c0]) == [];
    ExportedIdsSnoc(AsWritten, [c0], c1);
    assert ExportedIds(AsWritten, [c0] + [c1]) == ["avatar"];
    ExportedIdsSnoc(AsWritten, [c0] + [c1], c2);
    ExportedIdsSnoc(AsWritten, [c0] + [c1] + [c2], c3);
    ExportedIdsSnoc(AsWritten, [c0] + [c1] + [c2] + [c3], c4);
    ExportedIdsSnoc(AsWritten, [c0] + [c1] + [c2] + [c3] + [c4], c5);
    ExportedIdsSnoc(AsWritten, [c0] + [c1] + [c2] + [c3] + [c4] + [c5], c6);
  }

  /** The keys exported as written are still pairwise different. */
  lemma AsWrittenIdsDistinct()
    ensures Distinct(ExportedIds(AsWritten, Registry()))
  {
    RegistryExportedIdsAsWritten();
    assert Distinct(["avatar", "name", "description", "amount", "tooltip", "tableId"]);
  }

  /** No key the table's columns export, as written or as intended, is an array index. */
  lemma ExportKeysAreNotIndices()
    ensures NoArrayIndex(["avatar"] + ExportKeys)
    ensures NoArrayIndex(ExportKeys)
  {
    var ks := ["avatar"] + ExportKeys;
    forall i | 0 <= i < |ks| ensures !IsArrayIndex(ks[i]) {
      assert !IsDigit(ks[i][0]);
      NotIndexIfLetterFirst(ks[i]);
    }
    assert forall i | 0 <= i < |ExportKeys| :: ExportKeys[i] == ks[i + 1];
  }

  /** The export keys of the table's columns. */
  const ExportKeys: seq<string> := ["name", "description", "amount", "tooltip", "tableId"]

  /** `exportToExcel`'s row mapping, with the intended column test. */
  function ExportRow<V>(row: Row<V>): (rec: ExportRecord<V>)
    ensures KeysOf(rec) == ExportKeys
    ensures forall i | 0 <= i < |rec| :: rec[i].1 == Get(row, ExportKeys[i])
  {
    RegistryExportedIds();
    ExportKeysAreNotIndices();
    ProjectKeys(Intended, Registry(), row);
    Project(Intended, Registry(), row)
  }

  /**
   * Export of the visible rows: one object per row, in row order, each with
   * exactly the keys `name, description, amount, tooltip, tableId` holding the
   * row's raw (unformatted) values.
   */
  function ExportVisible<V>(visibleRows: seq<Row<V>>): (out: seq<ExportRecord<V>>)
    ensures |out| == |visibleRows|
    ensures forall r | 0 <= r < |out| :: |out[r]| == |ExportKeys| && KeysOf(out[r]) == ExportKeys
    ensures forall r, i | 0 <= r < |out| && 0 <= i < |out[r]| :: out[r][i].1 == Get(visibleRows[r], ExportKeys[i])
  {
    seq(|visibleRows|, r requires 0 <= r < |visibleRows| => ExportRow(visibleRows[r]))
  }

  /** The row mapping exactly as written: the avatar column is not skipped. */
  function ExportRowAsWritten<V>(row: Row<V>): (rec: ExportRecord<V>)
    ensures KeysOf(rec) == ["avatar"] + ExportKeys
    ensures forall i | 0 <= i < |rec| :: rec[i].1 == Get(row, rec[i].0)
  {
    RegistryExportedIdsAsWritten();
    AsWrittenIdsDistinct();
    ExportKeysAreNotIndices();
    ProjectKeys(AsWritten, Registry(), row);
    Project(AsWritten, Registry(), row)
  }

  /**
   * Export of the visible rows exactly as written: each object carries the
   * avatar field first, then the keys the intended export has.
   */
  function ExportVisibleAsWritten<V>(visibleRows: seq<Row<V>>): (out: seq<ExportRecord<V>>)
    ensures |out| == |visibleRows|
    ensures forall r | 0 <= r < |out| :: |out[r]| == 1 + |ExportKeys| && KeysOf(out[r]) == ["avatar"] + ExportKeys
    ensures forall r, i | 0 <= r < |out| && 0 <= i < |out[r]| :: out[r][i].1 == Get(visibleRows[r], out[r][i].0)
  {
    seq(|visibleRows|, r requires 0 <= r < |visibleRows| => ExportRowAsWritten(visibleRows[r]))
  }

  /** Any exported row, as written, carries the avatar field, which the code means to skip. */
  lemma AsWrittenExportsAvatar<V>(row: Row<V>)
    ensures "avatar" in KeysOf(ExportRowAsWritten(row))
    ensures "avatar" !in KeysOf(ExportRow(row))
  {
    assert KeysOf(ExportRowAsWritten(row))[0] == "avatar";
  }
}

=== FILE: maps.dfy ===
/** Lookups in plain JavaScript objects, modelled as maps. */
module Maps {
  import opened Wrappers

  /** Map lookup that answers None (JavaScript `undefined`) for a missing key. */
  function Get<K, V>(m: map<K, V>, k: K): (r: Option<V>)
    ensures r.Some? <==> k in m
    ensures r.Some? ==> r.value == m[k]
  {
    if k in m then Some(m[k]) else None
  }
}

=== FILE: paging.dfy ===
/**
 * Pagination arithmetic done by the table itself: the page count, the
 * "Showing a to b of n entries" footer, the "Page x of y" label, the targets
 * of the first/last page buttons and the rows-per-page choices.
 */
module Paging {
  import opened Wrappers
  import opened Decimal

  /** `Math.ceil(rowCount / pageSize)`. */
  function PageCount(rowCount: nat, pageSize: nat): (pages: nat)
    requires pageSize > 0
    ensures rowCount == 0 ==> pages == 0
    ensures rowCount > 0 ==> (pages - 1) * pageSize < rowCount <= pages * pageSize
  {
    var pages := (rowCount + pageSize - 1) / pageSize;
    DivBounds(rowCount + pageSize - 1, pageSize);
    pages
  }

  lemma DivBounds(a: nat, b: nat)
    requires b > 0
    ensures (a / b) * b <= a < (a / b) * b + b
  {
  }

  /** The ceiling is the only page count whose pages hold the rows with none left empty. */
  lemma PageCountIsUnique(rowCount: nat, pageSize: nat, pages: nat)
    requires pageSize > 0 && rowCount > 0
    requires (pages - 1) * pageSize < rowCount <= pages * pageSize
    ensures pages == PageCount(rowCount, pageSize)
  {
    var c := PageCount(rowCount, pageSize);
    if pages < c {
      MulMono(pages, c - 1, pageSize);
    } else if pages > c {
      MulMono(c, pages - 1, pageSize);
    }
  }

  lemma MulMono(a: nat, b: nat, k: nat)
    requires a <= b
    ensures a * k <= b * k
  {
  }

  /** The 1-based positions of the first and last row named in the footer. */
  datatype Range = Range(first: int, last: int)

  /**
   * The footer: the first row shown is `pageIndex * pageSize + 1` and the last
   * is `(pageIndex + 1) * pageSize`, capped at the number of rows.
   */
  function Footer(pageIndex: nat, pageSize: nat, rowCount: nat): (r: Range)
    ensures r.first >= 1
    ensures r.last <= rowCount
    ensures r.last - r.first + 1 <= pageSize
  {
    var first := pageIndex * pageSize + 1;
    var last := if (pageIndex + 1) * pageSize <= rowCount then (pageIndex + 1) * pageSize else rowCount;
    Range(first, last)
  }

  /**
   * The rows of page `pageIndex` as a half-open index range into the sorted
   * rows: `rows[pageIndex * pageSize .. pageIndex * pageSize + pageSize]`,
   * clipped to the rows that exist.
   */
  function PageWindow(pageIndex: nat, pageSize: nat, rowCount: nat): (w: (nat, nat))
    ensures w.0 <= w.1 <= rowCount
  {
    var lo := pageIndex * pageSize;
    var hi := lo + pageSize;
    (if lo <= rowCount then lo else rowCount, if hi <= rowCount then hi else rowCount)
  }

  /**
   * The footer names exactly the rows of the page being shown: it is
   * non-empty if and only if the page index is below the page count, and
   * then its first and last positions are the window's bounds, 1-based.
   */
  lemma FooterMatchesWindow(pageIndex: nat, pageSize: nat, rowCount: nat)
    requires pageSize > 0
    ensures var f := Footer(pageIndex, pageSize, rowCount);
      var w := PageWindow(pageIndex, pageSize, rowCount);
      && (f.first <= f.last <==> pageIndex < PageCount(rowCount, pageSize))
      && (f.first <= f.last ==> f.first == w.0 + 1 && f.last == w.1 && w.1 - w.0 == f.last - f.first + 1)
  {
    var pages := PageCount(rowCount, pageSize);
    if pageIndex < pages {
      MulMono(pageIndex, pages - 1, pageSize);
    } else if rowCount > 0 {
      MulMono(pages, pageIndex, pageSize);
    }
  }

  /** With rows present, every page up to the page count has something to show. */
  lemma FooterNonEmpty(pageIndex: nat, pageSize: nat, rowCount: nat)
    requires pageSize > 0 && rowCount > 0
    requires pageIndex < PageCount(rowCount, pageSize)
    ensures 1 <= Footer(pageIndex, pageSize, rowCount).first <= Footer(pageIndex, pageSize, rowCount).last <= rowCount
  {
    FooterMatchesWindow(pageIndex, pageSize, rowCount);
  }

  /** With no rows the footer reads "Showing 1 to 0 of 0 entries". */
  lemma FooterOfEmptyTable(pageSize: nat)
    ensures Footer(0, pageSize, 0) == Range(1, 0)
  {
  }

  /** "Page x of y": the page number is 1-based, and a page count of 0 is shown as 1. */
  datatype PageLabel = PageLabel(current: nat, total: nat)

  function Label(pageIndex: nat, pageCount: nat): (l: PageLabel)
    ensures l.current >= 1 && l.total >= 1
    ensures l.current - 1 == pageIndex
    ensures pageCount > 0 ==> l.total == pageCount
    ensures pageCount == 0 ==> l.total == 1
  {
    PageLabel(pageIndex + 1, if pageCount == 0 then 1 else pageCount)
  }

  /**
   * For the table's own page count, the label's total is the number of pages
   * (at least one), and any valid page index is labelled within that total.
   */
  lemma LabelWithinTotal(pageIndex: nat, pageSize: nat, rowCount: nat)
    requires pageSize > 0
    requires pageIndex < PageCount(rowCount, pageSize) || pageIndex == 0
    ensures var l := Label(pageIndex, PageCount(rowCount, pageSize));
      && 1 <= l.current <= l.total
      && (rowCount == 0 <==> l.total == 1 && PageCount(rowCount, pageSize) == 0)
  {
  }

  /** The "first page" button asks for page index 0. */
  const FirstPageTarget: int := 0

  /** The "last page" button asks for page index `pageCount - 1`. */
  function LastPageTarget(pageCount: nat): int {
    pageCount - 1
  }

  /**
   * The last page target is the page holding the last row, and its footer
   * ends at the last row. The first page target is a page index exactly when
   * there are rows. Without rows the last page target is -1, which is not a
   * page index either.
   */
  lemma JumpTargets(pageSize: nat, rowCount: nat)
    requires pageSize > 0
    ensures var t := LastPageTarget(PageCount(rowCount, pageSize));
      && (rowCount > 0 ==> 0 <= t && t * pageSize <= rowCount - 1 < (t + 1) * pageSize
                           && Footer(t, pageSize, rowCount).last == rowCount)
      && (rowCount > 0 <==> 0 <= FirstPageTarget < PageCount(rowCount, pageSize))
      && (rowCount == 0 ==> t == -1)
  {
  }

  /** The rows-per-page choices, in the order they are offered. */
  const PageSizeOptions: seq<nat> := [5, 10, 20, 30, 40, 50]

  /** The initial page size. */
  const InitialPageSize: nat := 5

  /** The offered sizes are exactly these six, strictly increasing, and include the initial size. */
  lemma PageSizeOptionsFacts()
    ensures (set k | k in PageSizeOptions) == {5, 10, 20, 30, 40, 50}
    ensures forall i, j | 0 <= i < j < |PageSizeOptions| :: 0 < PageSizeOptions[i] < PageSizeOptions[j]
    ensures InitialPageSize in PageSizeOptions
  {
  }

  /** `onValueChange`: the chosen item's string is read back with `Number`. */
  function ChosenPageSize(value: string): Option<nat> {
    Number(value)
  }

  /** Every offered size survives the trip through its item string unchanged. */
  lemma PageSizeChoiceRoundTrip(size: nat)
    requires size in PageSizeOptions
    ensures ChosenPageSize(ToDecimal(size)) == Some(size)
  {
    NumberOfToDecimal(size);
  }
}

=== FILE: reorder.dfy ===
/**
 * Drag-to-reorder of column headers: the `drop` handler's splice on the
 * column order and the `canDrag` guard that keeps sticky columns in place.
 */
module Reorder {
  import opened Seqs
  import opened Columns

  /**
   * Dropping the column `dragged` onto the header of `target`. Both indices are
   * looked up in the order before anything changes; the dragged id is removed
   * and then inserted at the target's pre-removal index. When either id is
   * missing the order is left as it was.
   */
  function Drop(order: seq<string>, dragged: string, target: string): (r: seq<string>)
    ensures |r| == |order|
    ensures multiset(r) == multiset(order)
    ensures dragged !in order || target !in order ==> r == order
    ensures dragged in order && target in order ==> r[FindIndex(order, target)] == dragged
  {
    var cur := FindIndex(order, dragged);
    var tgt := FindIndex(order, target);
    if cur != -1 && tgt != -1 then
      InsertAt(RemoveAt(order, cur), tgt, dragged)
    else
      order
  }

  /**
   * Reference description of a move, position by position: the element at
   * `cur` ends up at `tgt`, the elements in between shift one place towards
   * `cur`, and every other element stays where it was.
   */
  function Moved<T>(s: seq<T>, cur: nat, tgt: nat): (r: seq<T>)
    requires cur < |s| && tgt < |s|
    ensures |r| == |s|
  {
    seq(|s|, i requires 0 <= i < |s| =>
      if i == tgt then s[cur]
      else if cur < tgt && cur <= i < tgt then s[i + 1]
      else if tgt < cur && tgt < i <= cur then s[i - 1]
      else s[i])
  }

  /** When both ids are present, the drop is exactly the move from the dragged index to the target index. */
  lemma DropIsMove(order: seq<string>, dragged: string, target: string)
    requires dragged in order && target in order
    ensures Drop(order, dragged, target) == Moved(order, FindIndex(order, dragged), FindIndex(order, target))
  {
    var cur := FindIndex(order, dragged);
    var tgt := FindIndex(order, target);
    var r := Drop(order, dragged, target);
    var m := Moved(order, cur, tgt);
    var removed := RemoveAt(order, cur);
    assert r == InsertAt(removed, tgt, dragged);
    forall i | 0 <= i < |order|
      ensures r[i] == m[i]
    {
      if i < tgt {
        assert r[i] == removed[i];
      } else if i > tgt {
        assert r[i] == removed[i - 1];
      }
    }
  }

  /** Dropping a column onto itself changes nothing. */
  lemma DropOntoSelf(order: seq<string>, id: string)
    ensures Drop(order, id, id) == order
  {
    if id in order {
      DropIsMove(order, id, id);
    }
  }

  /** Only positions between the dragged and the target index (inclusive) can change. */
  lemma DropKeepsOutside(order: seq<string>, dragged: string, target: string, i: nat)
    requires dragged in order && target in order
    requires i < |order|
    requires var cur := FindIndex(order, dragged); var tgt := FindIndex(order, target);
      (i < cur && i < tgt) || (i > cur && i > tgt)
    ensures Drop(order, dragged, target)[i] == order[i]
  {
    DropIsMove(order, dragged, target);
  }

  /**
   * Dragging to the left lands the column immediately before the old target;
   * dragging to the right lands it immediately after.
   */
  lemma DropSide(order: seq<string>, dragged: string, target: string)
    requires dragged in order && target in order
    ensures var cur := FindIndex(order, dragged); var tgt := FindIndex(order, target);
      var r := Drop(order, dragged, target);
      && (cur > tgt ==> tgt + 1 < |r| && r[tgt] == dragged && r[tgt + 1] == target)
      && (cur < tgt ==> 0 < tgt && r[tgt - 1] == target && r[tgt] == dragged)
  {
    DropIsMove(order, dragged, target);
  }

  /** A drop never duplicates an id: a duplicate-free order stays duplicate-free. */
  lemma DropKeepsDistinct(order: seq<string>, dragged: string, target: string)
    requires Distinct(order)
    ensures Distinct(Drop(order, dragged, target))
  {
    DistinctPreservedByPermutation(order, Drop(order, dragged, target));
  }

  /** The example of dragging `amount` left onto `name`. */
  lemma DropExample()
    ensures Drop(["tableId", "name", "amount", "description"], "amount", "name")
      == ["tableId", "amount", "name", "description"]
  {
    var order := ["tableId", "name", "amount", "description"];
    ExampleIndices();
    DropIsMove(order, "amount", "name");
    var m := Moved(order, 2, 1);
    assert m[0] == "tableId" && m[1] == "amount" && m[2] == "name" && m[3] == "description";
  }

  lemma ExampleIndices()
    ensures FindIndex(["tableId", "name", "amount", "description"], "amount") == 2
    ensures FindIndex(["tableId", "name", "amount", "description"], "name") == 1
  {
    var order := ["tableId", "name", "amount", "description"];
    assert order[2] == "amount" && "amount" !in order[..2];
    assert order[1] == "name" && "name" !in order[..1];
  }

  /** `canDrag`: sticky columns cannot be picked up. */
  predicate CanDrag(c: ColumnDef) {
    !c.isSticky
  }

  /** A completed drag gesture: the source is picked up only when it can be dragged, then dropped on `target`. */
  function DragAndDrop(order: seq<string>, source: ColumnDef, target: string): (r: seq<string>)
    ensures source.isSticky ==> r == order
    ensures multiset(r) == multiset(order)
  {
    if CanDrag(source) then Drop(order, ColumnId(source), target) else order
  }

  /** Of the registry's columns, only `description`, `amount` and `tooltip` can be dragged. */
  lemma RegistryDragSources(i: nat)
    requires i < |Registry()|
    ensures CanDrag(Registry()[i]) <==> ColumnId(Registry()[i]) in {"description", "amount", "tooltip"}
  {
    RegistryIdsValue();
    assert ColumnId(Registry()[i]) == RegistryIds()[i];
  }
}

=== FILE: resize.dfy ===
/**
 * Live column resizing: which headers get a resize handle, and the clamped
 * width update applied to the column-sizing map on every mouse move.
 */
module Resize {
  import opened Wrappers

  /** `columnSizing`: header id to width in pixels. */
  type Sizing = map<string, int>

  /** The minimum used when a column declares no `minSize` (or a zero one). */
  const FallbackMinSize := 50

  /**
   * `canResize`: the checkbox column and the `tableId` column never resize;
   * any other column resizes exactly when the table library allows it.
   */
  predicate CanResize(id: string, libraryCanResize: bool) {
    id != "select" && id != "tableId" && libraryCanResize
  }

  /**
   * The checkbox and `tableId` columns never get a resize handle, whatever the
   * library says; every other column gets one exactly when the library allows it.
   */
  lemma ResizableColumns(id: string, libraryCanResize: bool)
    ensures !CanResize("select", libraryCanResize) && !CanResize("tableId", libraryCanResize)
    ensures id != "select" && id != "tableId" ==> (CanResize(id, libraryCanResize) <==> libraryCanResize)
    ensures !libraryCanResize ==> !CanResize(id, libraryCanResize)
  {
  }

  /** `minSize || 50`: an unset or zero minimum falls back to 50. */
  function MinWidth(minSize: Option<int>): int {
    if minSize.None? || minSize.value == 0 then FallbackMinSize else minSize.value
  }

  /** The width the header currently reports: its sizing entry, or `defaultSize` before it has one. */
  function CurrentWidth(sizing: Sizing, id: string, defaultSize: int): int {
    if id in sizing then sizing[id] else defaultSize
  }

  /**
   * One mouse move of `movementX` pixels while resizing header `id`. A header
   * that cannot resize has no handler, so its sizing never changes.
   */
  function ResizeStep(sizing: Sizing, id: string, libraryCanResize: bool, minSize: Option<int>,
                      defaultSize: int, movementX: int): (r: Sizing)
    ensures !CanResize(id, libraryCanResize) ==> r == sizing
    ensures CanResize(id, libraryCanResize) ==>
      && id in r
      && r[id] >= MinWidth(minSize)
      && (CurrentWidth(sizing, id, defaultSize) + movementX >= MinWidth(minSize) ==>
            r[id] == CurrentWidth(sizing, id, defaultSize) + movementX)
      && (CurrentWidth(sizing, id, defaultSize) + movementX < MinWidth(minSize) ==>
            r[id] == MinWidth(minSize))
    ensures r.Keys == if CanResize(id, libraryCanResize) then sizing.Keys + {id} else sizing.Keys
    ensures forall k | k in sizing && k != id :: r[k] == sizing[k]
  {
    if !CanResize(id, libraryCanResize) then sizing
    else
      var w := CurrentWidth(sizing, id, defaultSize) + movementX;
      sizing[id := if MinWidth(minSize) >= w then MinWidth(minSize) else w]
  }

  /** From a width at or above the minimum, moving right never makes the column narrower. */
  lemma GrowingNeverShrinks(sizing: Sizing, id: string, libraryCanResize: bool, minSize: Option<int>,
                            defaultSize: int, movementX: int)
    requires CurrentWidth(sizing, id, defaultSize) >= MinWidth(minSize)
    requires movementX >= 0
    ensures CurrentWidth(ResizeStep(sizing, id, libraryCanResize, minSize, defaultSize, movementX), id, defaultSize)
      >= CurrentWidth(sizing, id, defaultSize)
  {
  }

  /**
   * A whole resize gesture: the sizing map after each of the mouse moves
   * `moves`, in order. Each move reads the width left by the one before.
   */
  function Session(sizing: Sizing, id: string, libraryCanResize: bool, minSize: Option<int>,
                   defaultSize: int, moves: seq<int>): (trace: seq<Sizing>)
    ensures |trace| == |moves|
    ensures CanResize(id, libraryCanResize) ==>
      forall i | 0 <= i < |trace| :: id in trace[i] && trace[i][id] >= MinWidth(minSize)
    ensures !CanResize(id, libraryCanResize) ==> forall i | 0 <= i < |trace| :: trace[i] == sizing
    ensures forall i, k | 0 <= i < |trace| && k in sizing && k != id :: k in trace[i] && trace[i][k] == sizing[k]
    decreases |moves|
  {
    if |moves| == 0 then []
    else
      var next := ResizeStep(sizing, id, libraryCanResize, minSize, defaultSize, moves[0]);
      [next] + Session(next, id, libraryCanResize, minSize, defaultSize, moves[1..])
  }

  /** The sum of a sequence of mouse movements. */
  function Sum(xs: seq<int>): int {
    if |xs| == 0 then 0 else xs[0] + Sum(xs[1..])
  }

  /**
   * While no move would take the column below its minimum, the clamp never
   * fires and the width after `k` moves is the start width plus their sum.
   */
  lemma {:induction false} UnclampedSessionAdds(sizing: Sizing, id: string, libraryCanResize: bool,
                                                minSize: Option<int>, defaultSize: int, moves: seq<int>)
    requires CanResize(id, libraryCanResize)
    requires forall k | 1 <= k <= |moves| ::
      CurrentWidth(sizing, id, defaultSize) + Sum(moves[..k]) >= MinWidth(minSize)
    ensures var trace := Session(sizing, id, libraryCanResize, minSize, defaultSize, moves);
      forall k | 1 <= k <= |moves| :: trace[k - 1][id] == CurrentWidth(sizing, id, defaultSize) + Sum(moves[..k])
    decreases |moves|
  {
    if |moves| > 0 {
      var start := CurrentWidth(sizing, id, defaultSize);
      var next := ResizeStep(sizing, id, libraryCanResize, minSize, defaultSize, moves[0]);
      assert moves[..1] == [moves[0]];
      assert Sum(moves[..1]) == moves[0];
      assert next[id] == start + moves[0];
      var rest := moves[1..];
      forall k | 1 <= k <= |rest|
        ensures CurrentWidth(next, id, defaultSize) + Sum(rest[..k]) >= MinWidth(minSize)
      {
        SumHead(moves[..k + 1]);
        assert moves[..k + 1][1..] == rest[..k];
      }
      UnclampedSessionAdds(next, id, libraryCanResize, minSize, defaultSize, rest);
      var trace := Session(sizing, id, libraryCanResize, minSize, defaultSize, moves);
      forall k | 1 <= k <= |moves|
        ensures trace[k - 1][id] == start + Sum(moves[..k])
      {
        if k > 1 {
          SumHead(moves[..k]);
          assert moves[..k][1..] == rest[..k - 1];
        }
      }
    }
  }

  lemma SumHead(xs: seq<int>)
    requires |xs| > 0
    ensures Sum(xs) == xs[0] + Sum(xs[1..])
  {
  }

  /** With only rightward moves from a width at or above the minimum, the width never decreases during the gesture. */
  lemma {:induction false} GrowingSessionIsMonotone(sizing: Sizing, id: string, libraryCanResize: bool,
                                                    minSize: Option<int>, defaultSize: int, moves: seq<int>)
    requires CanResize(id, libraryCanResize)
    requires CurrentWidth(sizing, id, defaultSize) >= MinWidth(minSize)
    requires forall i | 0 <= i < |moves| :: moves[i] >= 0
    ensures var trace := Session(sizing, id, libraryCanResize, minSize, defaultSize, moves);
      && (|trace| > 0 ==> trace[0][id] >= CurrentWidth(sizing, id, defaultSize))
      && forall i | 0 < i < |trace| :: trace[i][id] >= trace[i - 1][id]
    decreases |moves|
  {
    if |moves| > 0 {
      var next := ResizeStep(sizing, id, libraryCanResize, minSize, defaultSize, moves[0]);
      GrowingNeverShrinks(sizing, id, libraryCanResize, minSize, defaultSize, moves[0]);
      GrowingSessionIsMonotone(next, id, libraryCanResize, minSize, defaultSize, moves[1..]);
    }
  }
}

=== FILE: selection.dfy ===
/**
 * The selection summary the table computes itself: clearing the selection,
 * counting it for the clear button, the tri-state "select all" checkbox and
 * the selection badge.
 */
module Selection {

  /** `rowSelection`: row id to selected flag. The table library keeps only selected rows as keys. */
  type RowSelection = map<string, bool>

  /** `clearAllSelections`: the selection is replaced by the empty object. */
  function ClearAll(sel: RowSelection): (r: RowSelection)
    ensures SelectedCount(r) == 0
    ensures forall id :: id !in r
  {
    map[]
  }

  /** `Object.keys(rowSelection).length`: the number shown on the clear button. */
  function SelectedCount(sel: RowSelection): (n: nat)
    ensures n == 0 <==> sel == map[]
  {
    |sel.Keys|
  }

  /** The clear button is disabled when nothing is selected. */
  predicate ClearDisabled(sel: RowSelection) {
    SelectedCount(sel) == 0
  }

  /**
   * The clear button is enabled exactly when some row is selected, and
   * pressing it always leaves the button disabled.
   */
  lemma ClearButtonState(sel: RowSelection)
    ensures ClearDisabled(sel) <==> forall id :: id !in sel
    ensures ClearDisabled(ClearAll(sel))
  {
    if !ClearDisabled(sel) {
      assert sel != map[];
      var k :| k in sel;
    }
  }

  /** The three states of the "select all" checkbox. */
  datatype CheckState = Checked | Indeterminate | Unchecked

  /**
   * The "select all" checkbox value, from the library's two answers (are all
   * rows of the page selected, are some of them): all wins, otherwise some
   * gives the indeterminate mark, otherwise the box is clear.
   */
  function SelectAllState(allOnPage: bool, someOnPage: bool): (c: CheckState)
    ensures c == Checked <==> allOnPage
    ensures c == Indeterminate <==> !allOnPage && someOnPage
    ensures c == Unchecked <==> !allOnPage && !someOnPage
  {
    if allOnPage then Checked
    else if someOnPage then Indeterminate
    else Unchecked
  }

  /** The selection badge: "k of n row(s) selected", or "No rows selected". */
  datatype Badge = NoRowsSelected | RowsSelected(selected: nat, of: nat)

  /** The badge for `selected` selected rows out of `filtered` rows, both counted by the table library. */
  function SelectionBadge(selected: nat, filtered: nat): (b: Badge)
    ensures b.RowsSelected? <==> selected > 0
    ensures b.RowsSelected? ==> b.selected == selected && b.of == filtered
  {
    if selected > 0 then RowsSelected(selected, filtered) else NoRowsSelected
  }
}

=== FILE: seqs.dfy ===
/** The `Array.prototype` operations the column-order code relies on: `findIndex` and `splice`. */
module Seqs {

  /** No element occurs twice. */
  predicate Distinct<T(==)>(s: seq<T>) {
    forall i, j | 0 <= i < j < |s| :: s[i] != s[j]
  }

  /** `findIndex(e => e === x)`: the first index holding `x`, or -1 when there is none. */
  function FindIndex<T(==)>(s: seq<T>, x: T): (r: int)
    ensures -1 <= r < |s|
    ensures r == -1 <==> x !in s
    ensures 0 <= r ==> s[r] == x && x !in s[..r]
  {
    if |s| == 0 then -1
    else if s[0] == x then 0
    else
      var k := FindIndex(s[1..], x);
      if k == -1 then -1
      else
        assert s[..k + 1] == [s[0]] + s[1..][..k];
        k + 1
  }

  /** `splice(i, 1)` with `i` in range: the sequence without the element at `i`. */
  function RemoveAt<T>(s: seq<T>, i: nat): (r: seq<T>)
    requires i < |s|
    ensures |r| == |s| - 1
    ensures forall j | 0 <= j < i :: r[j] == s[j]
    ensures forall j | i <= j < |r| :: r[j] == s[j + 1]
    ensures multiset(r) + multiset{s[i]} == multiset(s)
  {
    assert s == s[..i] + [s[i]] + s[i + 1..];
    s[..i] + s[i + 1..]
  }

  /**
   * `splice(i, 0, x)` for a non-negative start: `x` is inserted at `i`, or
   * appended when `i` lies past the end (JavaScript clamps the start to the length).
   */
  function InsertAt<T>(s: seq<T>, i: nat, x: T): (r: seq<T>)
    ensures |r| == |s| + 1
    ensures var k := if i <= |s| then i else |s|;
      && r[k] == x
      && (forall j | 0 <= j < k :: r[j] == s[j])
      && (forall j | k < j < |r| :: r[j] == s[j - 1])
    ensures multiset(r) == multiset(s) + multiset{x}
  {
    var k := if i <= |s| then i else |s|;
    assert s == s[..k] + s[k..];
    s[..k] + [x] + s[k..]
  }

  /** Two positions of a duplicate-free sequence hold different elements. */
  lemma DistinctAt<T>(s: seq<T>, i: nat, j: nat)
    requires Distinct(s)
    requires i < |s| && j < |s| && i != j
    ensures s[i] != s[j]
  {
  }

  /** In a duplicate-free sequence every element occurs at most once. */
  lemma {:induction false} CountAtMostOne<T>(s: seq<T>, x: T)
    requires Distinct(s)
    ensures multiset(s)[x] <= 1
  {
    if |s| > 0 {
      assert s == [s[0]] + s[1..];
      CountAtMostOne(s[1..], x);
      assert s[0] !in s[1..];
    }
  }

  /** An element found at two different positions occurs at least twice. */
  lemma CountAtLeastTwo<T>(s: seq<T>, i: nat, j: nat)
    requires i < j < |s| && s[i] == s[j]
    ensures multiset(s)[s[i]] >= 2
  {
    assert s == s[..j] + s[j..];
    assert s[..j][i] == s[i];
    assert s[j..][0] == s[j];
  }

  /** Rearranging a duplicate-free sequence cannot introduce a duplicate. */
  lemma DistinctPreservedByPermutation<T>(a: seq<T>, b: seq<T>)
    requires multiset(a) == multiset(b)
    requires Distinct(a)
    ensures Distinct(b)
  {
    forall i, j | 0 <= i < j < |b|
      ensures b[i] != b[j]
    {
      if b[i] == b[j] {
        CountAtLeastTwo(b, i, j);
        CountAtMostOne(a, b[i]);
        assert false;
      }
    }
  }
}

=== FILE: table.dfy ===
/**
 * The table component's own state and the invariant that ties the column
 * layout to the registry across any number of drag-and-drop gestures.
 */
module Table {
  import opened Seqs
  import opened Columns
  import opened Reorder
  import opened Paging
  import opened Selection
  import opened Export

  /** The state the component holds: row selection, pagination, column order and the loaded row count. */
  datatype TableState = TableState(
    rowSelection: RowSelection,
    pageIndex: nat,
    pageSize: nat,
    columnOrder: seq<string>,
    rowCount: nat)

  /** The state on first render, before the mock data has been loaded. */
  function Initial(): TableState {
    TableState(map[], 0, InitialPageSize, InitialOrder, 0)
  }

  /**
   * On first render nothing is selected and the clear button is disabled,
   * the page size is one of the offered sizes, every column appears once in
   * the order, the label reads "Page 1 of 1" and the footer "Showing 1 to 0".
   */
  lemma InitialStateFacts()
    ensures SelectedCount(Initial().rowSelection) == 0 && ClearDisabled(Initial().rowSelection)
    ensures Initial().pageSize in PageSizeOptions
    ensures IsLayoutOf(Initial().columnOrder, Registry())
    ensures PageCount(Initial().rowCount, Initial().pageSize) == 0
    ensures Label(Initial().pageIndex, PageCount(Initial().rowCount, Initial().pageSize)) == PageLabel(1, 1)
    ensures Footer(Initial().pageIndex, Initial().pageSize, Initial().rowCount) == Range(1, 0)
  {
    InitialOrderIsLayout();
  }

  /** One drag-and-drop gesture: the header picked up and the header it is dropped on. */
  datatype Move = Move(source: ColumnDef, target: string)

  /** The column order after a series of gestures, applied in order. */
  function ApplyMoves(order: seq<string>, moves: seq<Move>): (r: seq<string>)
    ensures |r| == |order|
    ensures multiset(r) == multiset(order)
    decreases |moves|
  {
    if |moves| == 0 then order
    else ApplyMoves(DragAndDrop(order, moves[0].source, moves[0].target), moves[1..])
  }

  /** Gestures never lose or duplicate a column: a layout of the registry stays one. */
  lemma MovesKeepLayout(order: seq<string>, moves: seq<Move>)
    requires IsLayoutOf(order, Registry())
    ensures IsLayoutOf(ApplyMoves(order, moves), Registry())
  {
    DistinctPreservedByPermutation(order, ApplyMoves(order, moves));
  }

  /** From the initial order, whatever gestures follow, every registry column is present exactly once. */
  lemma LayoutAlwaysFromRegistry(moves: seq<Move>)
    ensures IsLayoutOf(ApplyMoves(Initial().columnOrder, moves), Registry())
  {
    InitialOrderIsLayout();
    MovesKeepLayout(Initial().columnOrder, moves);
  }

  /** Gestures that start on sticky headers never change the order. */
  lemma {:induction false} StickySourcesNeverMove(order: seq<string>, moves: seq<Move>)
    requires forall i | 0 <= i < |moves| :: moves[i].source.isSticky
    ensures ApplyMoves(order, moves) == order
    decreases |moves|
  {
    if |moves| > 0 {
      StickySourcesNeverMove(order, moves[1..]);
    }
  }

  /**
   * When the visible rows are the current page of the sorted rows, the export
   * holds one record per row named in the footer: record `i` is the export of
   * row `first + i` (1-based), and there are `last - first + 1` records.
   * This holds for the export with the corrected column test and for the
   * export as written alike.
   */
  lemma ExportMatchesFooter<V>(rows: seq<Row<V>>, pageIndex: nat, pageSize: nat)
    requires pageSize > 0
    requires pageIndex < PageCount(|rows|, pageSize)
    ensures var f := Footer(pageIndex, pageSize, |rows|);
      var w := PageWindow(pageIndex, pageSize, |rows|);
      var out := ExportVisible(rows[w.0..w.1]);
      var raw := ExportVisibleAsWritten(rows[w.0..w.1]);
      && |out| == f.last - f.first + 1
      && (forall i | 0 <= i < |out| :: 0 <= f.first - 1 + i < |rows| && out[i] == ExportRow(rows[f.first - 1 + i]))
      && |raw| == |out|
      && (forall i | 0 <= i < |raw| :: raw[i] == ExportRowAsWritten(rows[f.first - 1 + i]))
  {
    var f := Footer(pageIndex, pageSize, |rows|);
    var w := PageWindow(pageIndex, pageSize, |rows|);
    FooterMatchesWindow(pageIndex, pageSize, |rows|);
    assert f.first - 1 == w.0 && f.last == w.1;
    ExportSlice(rows, w.0, w.1);
  }

  /** Exporting a slice of the rows gives, at each position, the export of the row at that offset. */
  lemma ExportSlice<V>(rows: seq<Row<V>>, lo: nat, hi: nat)
    requires lo <= hi <= |rows|
    ensures var out := ExportVisible(rows[lo..hi]);
      var raw := ExportVisibleAsWritten(rows[lo..hi]);
      && |out| == |raw| == hi - lo
      && (forall i | 0 <= i < |out| :: out[i] == ExportRow(rows[lo + i]))
      && (forall i | 0 <= i < |raw| :: raw[i] == ExportRowAsWritten(rows[lo + i]))
  {
  }

  /** Twelve rows in pages of five make three pages, and the second page shows rows 6 to 10. */
  lemma SecondPageOfTwelve()
    ensures PageCount(12, 5) == 3
    ensures Footer(1, 5, 12) == Range(6, 10)
    ensures PageWindow(1, 5, 12) == (5, 10)
  {
  }
}

=== FILE: wrappers.dfy ===
/** The optional value used wherever the JavaScript code yields `undefined` or `NaN`. */
module Wrappers {

  datatype Option<+T> = None | Some(value: T) {

    /** Returns the value held in Some, or `default` for None */
    function GetOr(default: T): T {
      match this
      case Some(v) => v
      case None => default
    }
  }
}
